=== FILE: README.md ===
# CustomUnitView stepper, modelled in Dafny

`CustomUnitView` is an Android widget that shows a quantity with a unit
label (minutes, hours, kilograms, pounds) between a decrement and an
increment button. A tap steps the quantity once; a long press starts a
50 ms repeating counter that keeps stepping until a touch event with the
release action (`ACTION_UP`) arrives on that button. The widget resolves
its configuration at construction, with per-unit defaults that apply only
where the host left the "not set" marker `-1`; selecting a unit later
resolves it again, and the setters for the step and the default value
change it directly. It reports every change to at most one listener.

This project models that logic as immutable records and pure transitions:

- `wrappers.dfy` — `Option`.
- `units.dfy` (`Units`) — the unit codes and the per-unit default table of
  the companion object. All amounts are integers in hundredths, so `-1F` is
  `Sentinel == -100` and the pounds default `145.2` is `14520`.
- `stepper.dfy` (`Stepper`) — `Increment`/`Decrement` with their one-sided
  clamps (`MinRange == 0`, `MaxRange == 10^8` units), repeated steps, and
  the lemmas that repeated steps are exact, reach the bound and stay there.
- `amount_text.dfy` (`AmountText`) — the shown text: integer mode shows the
  amount converted to a 32-bit integer (truncated toward zero, saturating
  at the 32-bit limits); decimal mode shows the amount with one or
  two fraction digits. `ParseAmount` reads such text back, which is what
  `getAmount` does; the round trip is proved for both modes.
- `unit_view.dfy` (`UnitView`) — the widget record, configuration
  defaulting, `updateAmount`/`getAmount`, the setters, construction, and
  `Handle`, the reaction to one `Event` (long click, touch, click on either
  button, or a tick of the repeating counter). A `Reaction` carries the new
  record, the value the listener was called with (None when no listener is
  registered: the platform error is swallowed), and `postsTick`, whether the
  counter callback is posted to run again.
- `unit_view_properties.dfy` (`UnitViewProperties`) — properties over
  several calls and event sequences.

The widget rounds every computed amount to two decimals
(`CustomUnitView.kt:329-331`). On integers in hundredths that rounding is
exact, so the model has no separate rounding function.

The hold flags are read as a state machine `ModeOf`: `Incrementing` when
the increment flag is set, else `Decrementing` when the decrement flag is
set, else `Idle`. Both flags can be set at once, and then the counter
increments, as it tests that flag first.

The long-press handlers return false. Android then also delivers a click
when the button is released. The model keeps these as separate `Click`
events, so a press-and-hold is `LongClick`, ticks, `Touch(_, ActionUp)`,
then `Click`.

Behaviour worth knowing:

- The amount is not kept within `[min, max]`: increments clamp only at the
  maximum, decrements only at the minimum. A widget built without
  attributes starts at `-1` with step `-1`, and an increment takes it to
  `-2` (`UnconfiguredWidgetLeavesRange`). The range is kept only from an
  in-range amount with a non-negative step (`EventsKeepRange`).
- An explicit value equal to the marker `-1` cannot be told from "not set",
  and the unit default replaces it.
- Only a release clears a hold flag. A touch that ends otherwise (for
  example a cancelled gesture, `ACTION_CANCEL`) leaves the flag set, so the
  counter keeps repeating (`Touch(_, OtherAction)` in `HoldFlags`).
- `setDefaultValue` shows the new value but leaves the current amount
  alone. The next step starts from the old amount
  (`SetDefaultValueKeepsCurrentAmount`).

## Model

| member | source | states |
|---|---|---|
| Units.KindOf | app/src/main/java/com/rnd/customunitview/CustomUnitView.kt:305-308 | a code selects a unit kind exactly when it is that kind's code; every other code selects none |
| Units.CodeRoundTrip | app/src/main/java/com/rnd/customunitview/CustomUnitView.kt:305-308 | each unit kind's code selects that kind again |
| Units.DefaultAmount | app/src/main/java/com/rnd/customunitview/CustomUnitView.kt:310-319 | every per-unit default amount is positive, so it is never the "not set" marker |
| Units.DefaultChangeFactor | app/src/main/java/com/rnd/customunitview/CustomUnitView.kt:311-320 | every per-unit default step is positive, so it is never the "not set" marker |
| UnitViewProperties.UnitDefaultsTable | app/src/main/java/com/rnd/customunitview/CustomUnitView.kt:305-320 | with no explicit amount or step, minutes get 60/5, hours 60/1, kilograms 68/0.5, pounds 145.2/0.5 |
| UnitView.UpdateDefaultAmount | app/src/main/java/com/rnd/customunitview/CustomUnitView.kt:155-157 | the default amount is replaced only while it is still the marker; an explicit value is kept; no other field changes |
| UnitView.UpdateChangeFactor | app/src/main/java/com/rnd/customunitview/CustomUnitView.kt:151-153 | the step is replaced only while it is still the marker; an explicit value is kept; no other field changes |
| UnitView.InitRequiredAttributes | app/src/main/java/com/rnd/customunitview/CustomUnitView.kt:94-149 | explicit amount and step are never overridden; a marker is replaced by the unit's default; an unknown code changes neither nor the label; the current amount ends equal to the default amount and is shown; the listener, if any, hears it |
| UnitViewProperties.KnownUnitIsConfigured | app/src/main/java/com/rnd/customunitview/CustomUnitView.kt:94-127 | after resolving a known unit neither the default amount nor the step is the marker |
| UnitViewProperties.InitRequiredAttributesIdempotent | app/src/main/java/com/rnd/customunitview/CustomUnitView.kt:94-157 | resolving the same unit a second time leaves the widget as the first time did |
| UnitViewProperties.ExplicitSettersWinOverUnitDefaults | app/src/main/java/com/rnd/customunitview/CustomUnitView.kt:271-283 | a step and default value set before selecting a unit survive the selection, and the widget starts at that value |
| UnitView.Construct | app/src/main/java/com/rnd/customunitview/CustomUnitView.kt:18-35 | a new widget has no listener and no held button, shows its current amount, which equals the default amount; without attributes it is unconfigured (code -1, amount and step at the marker); explicit attribute values are kept |
| Stepper.Increment | app/src/main/java/com/rnd/customunitview/CustomUnitView.kt:216-223 | the result never exceeds the maximum; it is the exact sum whenever the sum does not exceed the maximum, and otherwise the maximum |
| Stepper.Decrement | app/src/main/java/com/rnd/customunitview/CustomUnitView.kt:225-232 | the result never falls below the minimum; it is the exact difference whenever that is not below the minimum, and otherwise the minimum |
| Stepper.IncrementDoesNotClampAtMin | app/src/main/java/com/rnd/customunitview/CustomUnitView.kt:216-223 | an increment with step -1 from the minimum goes below the minimum unclamped |
| Stepper.DecrementDoesNotClampAtMax | app/src/main/java/com/rnd/customunitview/CustomUnitView.kt:225-232 | a decrement with step -1 from the maximum goes above the maximum unclamped |
| Stepper.StepsAreInverse | app/src/main/java/com/rnd/customunitview/CustomUnitView.kt:216-232 | away from the bounds a decrement undoes an increment and an increment undoes a decrement |
| Stepper.StepsKeepRange | app/src/main/java/com/rnd/customunitview/CustomUnitView.kt:216-232 | with a non-negative step both directions keep an in-range amount in range |
| Stepper.IncrementsStayAtMax | app/src/main/java/com/rnd/customunitview/CustomUnitView.kt:216-223 | at the maximum, any number of increments with a non-negative step leave the amount there |
| Stepper.DecrementsStayAtMin | app/src/main/java/com/rnd/customunitview/CustomUnitView.kt:225-232 | at the minimum, any number of decrements with a non-negative step leave the amount there |
| Stepper.IncrementsAreExact | app/src/main/java/com/rnd/customunitview/CustomUnitView.kt:216-223 | n increments add exactly n steps while that stays within the maximum |
| Stepper.DecrementsAreExact | app/src/main/java/com/rnd/customunitview/CustomUnitView.kt:225-232 | n decrements subtract exactly n steps while that stays above the minimum |
| Stepper.IncrementsReachMax | app/src/main/java/com/rnd/customunitview/CustomUnitView.kt:216-223 | with a positive step, n increments reach the maximum from any start once n steps would pass it |
| Stepper.DecrementsReachMin | app/src/main/java/com/rnd/customunitview/CustomUnitView.kt:225-232 | with a positive step, n decrements reach the minimum from any start once n steps would pass it |
| AmountText.TruncateToWhole | app/src/main/java/com/rnd/customunitview/CustomUnitView.kt:240 | the integer shown is a 32-bit integer: the amount truncated toward zero while that fits, otherwise the largest or smallest 32-bit integer |
| AmountText.NatText | app/src/main/java/com/rnd/customunitview/CustomUnitView.kt:240 | the decimal text of a number is non-empty, all digits, and without a leading zero unless the number is zero |
| AmountText.Render | app/src/main/java/com/rnd/customunitview/CustomUnitView.kt:236-241 | the shown text is non-empty, has a decimal point exactly in decimal mode (plain integer text otherwise), and reads back as the amount in decimal mode, or as its 32-bit truncation in integer mode |
| AmountText.ParseAmount | app/src/main/java/com/rnd/customunitview/CustomUnitView.kt:254-261 | a run of digits reads as that many whole units; any text that reads as a number is non-empty, and a negative value needs a leading minus |
| AmountText.ParseDigits | app/src/main/java/com/rnd/customunitview/CustomUnitView.kt:258 | a text reads as a number exactly when it is a non-empty run of digits |
| AmountText.ParseNatText | app/src/main/java/com/rnd/customunitview/CustomUnitView.kt:258 | the decimal text of a number reads back as that number |
| AmountText.ParseIntText | app/src/main/java/com/rnd/customunitview/CustomUnitView.kt:240 | integer-mode text reads back as the whole number shown, sign included |
| AmountText.ParseDecimalText | app/src/main/java/com/rnd/customunitview/CustomUnitView.kt:237 | decimal-mode text reads back as exactly the amount shown, sign included |
| UnitView.UpdateAmount | app/src/main/java/com/rnd/customunitview/CustomUnitView.kt:234-247 | only the text changes; it reads back as the amount (truncated in integer mode); the listener hears the full amount exactly when one is registered; a missing listener is swallowed; the text has a decimal point exactly in decimal mode |
| UnitView.GetAmount | app/src/main/java/com/rnd/customunitview/CustomUnitView.kt:253-265 | with no text shown the default amount is reported; while the text shows the current amount, that amount is reported (its 32-bit truncation in integer mode) |
| UnitView.SetAttributes | app/src/main/java/com/rnd/customunitview/CustomUnitView.kt:72-92 | with no attributes the widget is unchanged; with attributes, display mode, unit code, default amount and step come from them, and the amount, text, hold flags, label and listener are untouched |
| UnitView.AddUnitAmountChangeListener | app/src/main/java/com/rnd/customunitview/CustomUnitView.kt:249-251 | a listener is registered afterwards and nothing else changes |
| UnitView.SetUseFloat | app/src/main/java/com/rnd/customunitview/CustomUnitView.kt:267-269 | the display mode becomes the given one; the shown text and the amount are not refreshed; nothing else changes |
| UnitView.SetChangeFactor | app/src/main/java/com/rnd/customunitview/CustomUnitView.kt:271-273 | the step becomes the given value unconditionally; nothing else changes |
| UnitView.StepUp | app/src/main/java/com/rnd/customunitview/CustomUnitView.kt:210-213 | one increment of the current amount, which is then shown and reported to a registered listener; only the amount and text change; nothing is posted |
| UnitView.StepDown | app/src/main/java/com/rnd/customunitview/CustomUnitView.kt:190-193 | one decrement of the current amount, which is then shown and reported to a registered listener; only the amount and text change; nothing is posted |
| UnitView.SetDefaultValue | app/src/main/java/com/rnd/customunitview/CustomUnitView.kt:275-278 | the default amount becomes the value, which is shown, reported by `getAmount` and passed to a registered listener; the current amount and every other field are unchanged and nothing is posted |
| UnitView.SetUnitType | app/src/main/java/com/rnd/customunitview/CustomUnitView.kt:280-283 | the unit code is recorded and the defaults are resolved again: explicit amount and step are kept, a marker is replaced by the unit's default, an unknown code changes neither nor the label; the current amount is reset to the default amount, shown, and passed to a registered listener; display mode, hold flags and listener are unchanged |
| UnitView.Handle | app/src/main/java/com/rnd/customunitview/CustomUnitView.kt:176-213 | no event changes the configuration; an event keeps the text showing the current amount; a notification carries the new current amount and only happens with a listener |
| UnitViewProperties.HoldFlags | app/src/main/java/com/rnd/customunitview/CustomUnitView.kt:177-208 | a long click sets only its button's flag and posts the counter; a release clears only its button's flag; other touches change nothing; none changes the amount or notifies |
| UnitViewProperties.TickFollowsMode | app/src/main/java/com/rnd/customunitview/CustomUnitView.kt:285-297 | a tick increments once and re-arms when incrementing (also when both flags are set), decrements once and re-arms when only decrementing, and changes nothing and is not re-armed when idle; both hold flags survive the tick |
| UnitViewProperties.ReleaseStopsRepeat | app/src/main/java/com/rnd/customunitview/CustomUnitView.kt:203-208 | after releasing the held increment button, with decrement not held, the next tick changes nothing and is not re-armed |
| UnitViewProperties.ClickStepsOnce | app/src/main/java/com/rnd/customunitview/CustomUnitView.kt:190-213 | a click applies exactly one step in its button's direction, posts nothing, and does so the same way whatever the hold flags are |
| UnitViewProperties.ListenerDoesNotAffectState | app/src/main/java/com/rnd/customunitview/CustomUnitView.kt:234-247 | without a listener every event leads to the same widget state as with one, only without a notification |
| UnitViewProperties.ListenerHearsEveryClick | app/src/main/java/com/rnd/customunitview/CustomUnitView.kt:249-251 | once a listener is added, every click reports the new current amount to it |
| UnitViewProperties.UseFloatAppliesOnNextUpdate | app/src/main/java/com/rnd/customunitview/CustomUnitView.kt:267-269 | changing the display mode leaves the shown text as it was; the next click shows the amount in the new mode |
| UnitViewProperties.HeldTicksIncrement | app/src/main/java/com/rnd/customunitview/CustomUnitView.kt:285-297 | while increment is held, n ticks apply exactly n increments and leave the mode and configuration unchanged |
| UnitViewProperties.HeldTicksDecrement | app/src/main/java/com/rnd/customunitview/CustomUnitView.kt:285-297 | while only decrement is held, n ticks apply exactly n decrements and leave the mode and configuration unchanged |
| UnitViewProperties.ClicksIncrement | app/src/main/java/com/rnd/customunitview/CustomUnitView.kt:210-213 | n clicks on increment apply exactly n increments and keep the text showing the amount |
| UnitViewProperties.HoldReachesMax | app/src/main/java/com/rnd/customunitview/CustomUnitView.kt:285-297 | holding increment with a positive step long enough reaches the maximum, and further ticks stay there |
| UnitViewProperties.HoldReachesMin | app/src/main/java/com/rnd/customunitview/CustomUnitView.kt:285-297 | holding only decrement with a positive step long enough reaches the minimum, and further ticks stay there |
| UnitViewProperties.EventsKeepRange | app/src/main/java/com/rnd/customunitview/CustomUnitView.kt:216-232 | from an in-range amount with a non-negative step, every event leaves the amount in range |
| UnitViewProperties.UnconfiguredWidgetLeavesRange | app/src/main/java/com/rnd/customunitview/CustomUnitView.kt:55-76 | a widget built without attributes starts at -1, below the minimum, and an increment with its step -1 takes it to -2 |
| UnitViewProperties.SetDefaultValueKeepsCurrentAmount | app/src/main/java/com/rnd/customunitview/CustomUnitView.kt:275-278 | after setting the default value `getAmount` reports that value, but the next increment starts from the old current amount |
| UnitViewProperties.HoursExample | app/src/main/java/com/rnd/customunitview/CustomUnitView.kt:104-110 | an hours widget with default 60 and step 1 shows 65 after five increments and reaches 74 after nine more |

## Left out

- Layout inflation, view lookup, and text colour and size theming
  (`CustomUnitView.kt:129-144`, `160-171`): pure presentation.
- The unit label's text: it comes from string resources. The model records
  which unit kind's label is shown (`unitLabel`).
- Reading attributes from the platform's attribute array
  (`CustomUnitView.kt:78-91`) is a foreign call. `Attributes` holds what it
  returned, with its own fallbacks already applied (a missing unit type
  reads as 0, minutes).
- The 50 ms `Handler` scheduling and the cancellation on
  `onDetachedFromWindow`. A tick is a discrete event, and `postsTick` says
  whether it is posted again. Real timing, the queue of posted callbacks
  (two long presses post two), and concurrency are not modelled.
- Floating point. Amounts are exact hundredths. Float precision loss and
  values with more than two decimals are not modelled. The locale-dependent
  `String.format("%.2f")` round trip in `roundOffDecimal` is not modelled either.
- Stepper.IncrementsReachMax: holds for exact hundredths only. In the
  program's 32-bit floats a step stops changing large amounts:
  8388608 + 0.5 rounds back to 8388608 and 16777216 + 1 to 16777216. With
  the kilogram or pound step (0.5) increments stall at 2^23, and with the
  hours step (1) at 2^24, both far below the maximum of 10^8.
- Stepper.DecrementsReachMin: holds for exact hundredths only; in 32-bit
  floats a small step cannot move a large amount at all (see above).
- UnitViewProperties.HoldReachesMax: holds for exact hundredths only;
  holding increment with step 0.5 or 1 stalls at 2^23 or 2^24 in the program.
- UnitViewProperties.HoldReachesMin: holds for exact hundredths only; in
  32-bit floats a small step cannot move a large amount at all (see above).
- UnitView.UpdateAmount: the listener is host code called inside the
  update. The model assumes it does not call back into the widget (for
  example `setChangeFactor` or `setUseFloat`); such calls would change the
  widget during the notification, and the guarantee of `Handle` that no
  event changes the configuration holds only without them. An exception
  the listener throws is swallowed like the missing-listener error.
- AmountText.Render: decimal-mode text follows the platform's float
  printing only for magnitudes below 10^7. Larger values, which the platform
  prints in exponent form (`1.0E8` at the maximum), are shown here in plain
  decimal form.
- AmountText.ParseAmount: reads only the text forms the widget writes. The
  platform's `toFloat` also accepts exponents, surrounding blanks and other
  forms, which never appear in the widget's text.
- `Test.kt`: a stand-alone timing script for a regular expression, not
  part of the widget.
- `MainActivity.kt`: a demo host. It uses a widget from another package,
  and calls `setMaxRange`, which the modelled widget does not have.

=== FILE: amount_text.dfy ===
/**
  The text the widget shows for an amount, and the reading of that text back
  into an amount.

  In integer mode the widget shows the amount converted to a 32-bit integer,
  which truncates toward zero and saturates at the 32-bit limits, in the
  usual decimal form (`"65"`, `"-1"`). In
  decimal mode it shows the amount itself; for a value in hundredths that is
  the whole part, a point and one or two fraction digits (`"60.0"`,
  `"145.2"`, `"0.05"`), which is how the platform prints such a float.
 */
module AmountText {
  import opened Wrappers
  import opened Units

  predicate IsDigit(c: char)
  {
    '0' <= c <= '9'
  }

  predicate AllDigits(s: string)
  {
    forall i :: 0 <= i < |s| ==> IsDigit(s[i])
  }

  function DigitValue(c: char): (d: nat)
    requires IsDigit(c)
    ensures d < 10
  {
    c as int - '0' as int
  }

  function DigitChar(d: nat): (c: char)
    requires d < 10
    ensures IsDigit(c) && DigitValue(c) == d
  {
    ('0' as int + d) as char
  }

  /** The decimal digits of `n`, without leading zeros. */
  function NatText(n: nat): (s: string)
    ensures |s| > 0 && AllDigits(s)
    ensures n > 0 ==> s[0] != '0'
    decreases n
  {
    if n < 10 then [DigitChar(n)] else NatText(n / 10) + [DigitChar(n % 10)]
  }

  /** The value of a non-empty run of decimal digits; None for anything else. */
  function ParseDigits(s: string): (r: Option<nat>)
    ensures r.Some? <==> |s| > 0 && AllDigits(s)
    decreases |s|
  {
    if |s| == 0 || !IsDigit(s[|s| - 1]) then None
    else if |s| == 1 then Some(DigitValue(s[0]))
    else
      assert AllDigits(s) <==> AllDigits(s[..|s| - 1]) && IsDigit(s[|s| - 1]);
      match ParseDigits(s[..|s| - 1])
      case None => None
      case Some(v) => Some(v * 10 + DigitValue(s[|s| - 1]))
  }

  /** The smallest and largest 32-bit integers. */
  const IntMin: int := -0x8000_0000
  const IntMax: int := 0x7fff_ffff

  /**
    Conversion of an amount to a 32-bit integer: truncation toward zero,
    saturating at the 32-bit limits.
   */
  function TruncateToWhole(amount: int): (r: int)
    ensures IntMin <= r <= IntMax
    ensures 0 <= amount < (IntMax + 1) * Scale ==> 0 <= r && r * Scale <= amount < r * Scale + Scale
    ensures amount >= (IntMax + 1) * Scale ==> r == IntMax
    ensures (IntMin - 1) * Scale < amount < 0 ==> r <= 0 && r * Scale - Scale < amount <= r * Scale
    ensures amount <= (IntMin - 1) * Scale ==> r == IntMin
  {
    var truncated := if amount >= 0 then amount / Scale else -((-amount) / Scale);
    if truncated > IntMax then IntMax
    else if truncated < IntMin then IntMin
    else truncated
  }

  /** An integer in the usual decimal form, with a leading minus when negative. */
  function IntText(i: int): string
  {
    if i < 0 then "-" + NatText(-i) else NatText(i)
  }

  /** A non-negative amount in hundredths as whole part, point, and one or two fraction digits. */
  function UnsignedDecimalText(m: nat): string
  {
    var tenths := (m % Scale) / 10;
    var hundredths := m % 10;
    NatText(m / Scale) + "." + [DigitChar(tenths)]
      + (if hundredths == 0 then "" else [DigitChar(hundredths)])
  }

  function DecimalText(amount: int): string
  {
    if amount < 0 then "-" + UnsignedDecimalText(-amount) else UnsignedDecimalText(amount)
  }

  /** The text shown for `amount` in integer mode (`useFloat` false) or decimal mode. */
  function Render(useFloat: bool, amount: int): (s: string)
    ensures |s| > 0
    ensures ParseAmount(s) == Some(if useFloat then amount else TruncateToWhole(amount) * Scale)
    ensures ('.' in s) == useFloat
  {
    if useFloat then
      ParseDecimalText(amount);
      DecimalTextHasPoint(amount);
      DecimalText(amount)
    else
      ParseIntText(TruncateToWhole(amount));
      IntTextHasNoPoint(TruncateToWhole(amount));
      IntText(TruncateToWhole(amount))
  }

  /** Integer-mode text is a minus and digits only: it has no decimal point. */
  lemma IntTextHasNoPoint(i: int)
    ensures '.' !in IntText(i)
  {
    var t := IntText(i);
    var digits := NatText(if i < 0 then -i else i);
    assert forall k :: 0 <= k < |digits| ==> digits[k] != '.';
    if i < 0 {
      assert forall k :: 1 <= k < |t| ==> t[k] == digits[k - 1];
    }
    assert forall k :: 0 <= k < |t| ==> t[k] != '.';
  }

  /** Decimal-mode text has a point right after the whole part. */
  lemma DecimalTextHasPoint(amount: int)
    ensures '.' in DecimalText(amount)
  {
    var m := if amount < 0 then -amount else amount;
    var whole := NatText(m / Scale);
    var u := UnsignedDecimalText(m);
    assert u[|whole|] == '.';
    if amount < 0 {
      assert DecimalText(amount)[|whole| + 1] == '.';
    } else {
      assert DecimalText(amount)[|whole|] == '.';
    }
  }

  /**
    The amount (in hundredths) a shown text denotes: an optional minus, then
    digits, then optionally a point and one or two fraction digits. Only the
    forms the widget itself writes are read; anything else is None.
   */
  function ParseAmount(s: string): (r: Option<int>)
    ensures |s| > 0 && AllDigits(s) ==> r == Some(ParseDigits(s).value * Scale)
    ensures r.Some? ==> |s| > 0 && (r.value < 0 ==> s[0] == '-')
  {
    if 0 < |s| && s[0] == '-' then
      match ParseUnsigned(s[1..])
      case None => None
      case Some(m) => Some(-(m as int))
    else
      match ParseUnsigned(s)
      case None => None
      case Some(m) => Some(m)
  }

  function ParseUnsigned(s: string): Option<nat>
  {
    if 2 <= |s| && s[|s| - 2] == '.' then
      WithFraction(ParseDigits(s[..|s| - 2]), ParseDigits(s[|s| - 1..]), 10)
    else if 3 <= |s| && s[|s| - 3] == '.' then
      WithFraction(ParseDigits(s[..|s| - 3]), ParseDigits(s[|s| - 2..]), 1)
    else
      match ParseDigits(s)
      case None => None
      case Some(w) => Some(w * Scale)
  }

  function WithFraction(whole: Option<nat>, fraction: Option<nat>, weight: nat): Option<nat>
  {
    if whole.Some? && fraction.Some? then Some(whole.value * Scale + fraction.value * weight)
    else None
  }

  lemma {:induction false} ParseNatText(n: nat)
    ensures ParseDigits(NatText(n)) == Some(n)
    decreases n
  {
    if n >= 10 {
      var s := NatText(n);
      assert s[..|s| - 1] == NatText(n / 10);
      ParseNatText(n / 10);
    }
  }

  /** Text of digits only is read as a whole number of units. */
  lemma ParseWholeText(s: string, n: nat)
    requires ParseDigits(s) == Some(n)
    ensures ParseUnsigned(s) == Some(n * Scale)
  {
  }

  /** Integer-mode text reads back as the whole number it shows. */
  lemma ParseIntText(i: int)
    ensures ParseAmount(IntText(i)) == Some(i * Scale)
  {
    if i < 0 {
      var s := IntText(i);
      assert s[1..] == NatText(-i);
      ParseNatText(-i);
      ParseWholeText(NatText(-i), -i);
    } else {
      ParseNatText(i);
      ParseWholeText(NatText(i), i);
    }
  }

  /** Whole part, point and one fraction digit read back as that many tenths. */
  lemma ParseOneFractionDigit(whole: nat, tenths: nat)
    requires tenths < 10
    ensures ParseUnsigned(NatText(whole) + "." + [DigitChar(tenths)])
              == Some(whole * Scale + tenths * 10)
  {
    var s := NatText(whole) + "." + [DigitChar(tenths)];
    ParseNatText(whole);
    assert s[..|s| - 2] == NatText(whole);
    assert s[|s| - 1..] == [DigitChar(tenths)];
  }

  /** Whole part, point and two fraction digits read back as that many hundredths. */
  lemma ParseTwoFractionDigits(whole: nat, tenths: nat, hundredths: nat)
    requires tenths < 10 && hundredths < 10
    ensures ParseUnsigned(NatText(whole) + "." + [DigitChar(tenths), DigitChar(hundredths)])
              == Some(whole * Scale + tenths * 10 + hundredths)
  {
    var fraction := [DigitChar(tenths), DigitChar(hundredths)];
    var s := NatText(whole) + "." + fraction;
    ParseNatText(whole);
    assert s[|s| - 2] == DigitChar(tenths);
    assert s[..|s| - 3] == NatText(whole);
    assert s[|s| - 2..] == fraction;
    assert fraction[..1] == [DigitChar(tenths)];
    assert ParseDigits(fraction) == Some(tenths * 10 + hundredths);
  }

  lemma ParseUnsignedDecimalText(m: nat)
    ensures ParseUnsigned(UnsignedDecimalText(m)) == Some(m)
  {
    var tenths := (m % Scale) / 10;
    var hundredths := m % 10;
    assert m == (m / Scale) * Scale + tenths * 10 + hundredths;
    if hundredths == 0 {
      assert UnsignedDecimalText(m) == NatText(m / Scale) + "." + [DigitChar(tenths)];
      ParseOneFractionDigit(m / Scale, tenths);
    } else {
      assert UnsignedDecimalText(m)
          == NatText(m / Scale) + "." + [DigitChar(tenths), DigitChar(hundredths)];
      ParseTwoFractionDigits(m / Scale, tenths, hundredths);
    }
  }

  /** Decimal-mode text reads back as exactly the amount it shows. */
  lemma ParseDecimalText(amount: int)
    ensures ParseAmount(DecimalText(amount)) == Some(amount)
  {
    if amount < 0 {
      var s := DecimalText(amount);
      assert s[1..] == UnsignedDecimalText(-amount);
      ParseUnsignedDecimalText(-amount);
    } else {
      ParseUnsignedDecimalText(amount);
      assert IsDigit(NatText(amount / Scale)[0]);
    }
  }
}

=== FILE: stepper.dfy ===
/**
  One step of the widget's amount: add or subtract the step, round to two
  decimals (exact on hundredths), then clamp on ONE side only. Increment
  clamps at the maximum and never at the minimum; decrement clamps at the
  minimum and never at the maximum.
 */
module Stepper {
  import opened Units

  const MinRange: int := 0
  const MaxRange: int := 100_000_000 * Scale

  predicate InRange(amount: int)
  {
    MinRange <= amount <= MaxRange
  }

  function Increment(amount: int, factor: int): (r: int)
    ensures r <= MaxRange
    ensures r == amount + factor || r == MaxRange
    ensures amount + factor <= MaxRange ==> r == amount + factor
  {
    var sum := amount + factor;
    if sum > MaxRange then MaxRange else sum
  }

  function Decrement(amount: int, factor: int): (r: int)
    ensures r >= MinRange
    ensures r == amount - factor || r == MinRange
    ensures amount - factor >= MinRange ==> r == amount - factor
  {
    var difference := amount - factor;
    if difference < MinRange then MinRange else difference
  }

  /** The amount after `n` increments in a row. */
  function Increments(amount: int, factor: int, n: nat): int
    decreases n
  {
    if n == 0 then amount else Increments(Increment(amount, factor), factor, n - 1)
  }

  /** The amount after `n` decrements in a row. */
  function Decrements(amount: int, factor: int, n: nat): int
    decreases n
  {
    if n == 0 then amount else Decrements(Decrement(amount, factor), factor, n - 1)
  }

  /** Increment ignores the minimum: the unconfigured step -1 walks below it unclamped. */
  lemma IncrementDoesNotClampAtMin()
    ensures Increment(MinRange, Sentinel) == MinRange - Scale
  {
  }

  /** Decrement ignores the maximum: the unconfigured step -1 walks above it unclamped. */
  lemma DecrementDoesNotClampAtMax()
    ensures Decrement(MaxRange, Sentinel) == MaxRange + Scale
  {
  }

  /** Away from the bounds, a decrement undoes an increment and vice versa. */
  lemma StepsAreInverse(amount: int, factor: int)
    ensures MinRange <= amount && amount + factor <= MaxRange ==>
              Decrement(Increment(amount, factor), factor) == amount
    ensures amount <= MaxRange && amount - factor >= MinRange ==>
              Increment(Decrement(amount, factor), factor) == amount
  {
  }

  /** With a non-negative step both directions keep an in-range amount in range. */
  lemma StepsKeepRange(amount: int, factor: int)
    requires InRange(amount) && factor >= 0
    ensures InRange(Increment(amount, factor))
    ensures InRange(Decrement(amount, factor))
  {
  }

  /** Once at the maximum, further increments with a non-negative step stay there. */
  lemma {:induction false} IncrementsStayAtMax(factor: int, n: nat)
    requires factor >= 0
    ensures Increments(MaxRange, factor, n) == MaxRange
    decreases n
  {
    if n > 0 {
      IncrementsStayAtMax(factor, n - 1);
    }
  }

  /** Once at the minimum, further decrements with a non-negative step stay there. */
  lemma {:induction false} DecrementsStayAtMin(factor: int, n: nat)
    requires factor >= 0
    ensures Decrements(MinRange, factor, n) == MinRange
    decreases n
  {
    if n > 0 {
      DecrementsStayAtMin(factor, n - 1);
    }
  }

  /** Below the maximum, `n` increments add exactly `n` steps. */
  lemma {:induction false} IncrementsAreExact(amount: int, factor: int, n: nat)
    requires factor >= 0 && amount + n * factor <= MaxRange
    ensures Increments(amount, factor, n) == amount + n * factor
    decreases n
  {
    if n > 0 {
      assert n * factor == (n - 1) * factor + factor;
      IncrementsAreExact(amount + factor, factor, n - 1);
    }
  }

  /** Above the minimum, `n` decrements subtract exactly `n` steps. */
  lemma {:induction false} DecrementsAreExact(amount: int, factor: int, n: nat)
    requires factor >= 0 && amount - n * factor >= MinRange
    ensures Decrements(amount, factor, n) == amount - n * factor
    decreases n
  {
    if n > 0 {
      assert n * factor == (n - 1) * factor + factor;
      DecrementsAreExact(amount - factor, factor, n - 1);
    }
  }

  /** Enough increments with a positive step reach the maximum, whatever the start. */
  lemma {:induction false} IncrementsReachMax(amount: int, factor: int, n: nat)
    requires factor > 0 && n > 0 && amount + n * factor >= MaxRange
    ensures Increments(amount, factor, n) == MaxRange
    decreases n
  {
    if amount + factor >= MaxRange {
      IncrementsStayAtMax(factor, n - 1);
    } else {
      assert n * factor == (n - 1) * factor + factor;
      IncrementsReachMax(amount + factor, factor, n - 1);
    }
  }

  /** Enough decrements with a positive step reach the minimum, whatever the start. */
  lemma {:induction false} DecrementsReachMin(amount: int, factor: int, n: nat)
    requires factor > 0 && n > 0 && amount - n * factor <= MinRange
    ensures Decrements(amount, factor, n) == MinRange
    decreases n
  {
    if amount - factor <= MinRange {
      DecrementsStayAtMin(factor, n - 1);
    } else {
      assert n * factor == (n - 1) * factor + factor;
      DecrementsReachMin(amount - factor, factor, n - 1);
    }
  }
}

=== FILE: unit_view.dfy ===
/**
  The stepper widget as an immutable record and pure transitions.

  The host's button callbacks (long click, touch, click) and the repeating
  counter callback become `Event`s; `Handle` is the widget's reaction to one
  of them. A reaction carries the new record, the amount the change listener
  was called with (if one is registered), and whether the counter callback
  is posted to run again. Scheduling itself is left to the caller.
 */
module UnitView {
  import opened Wrappers
  import opened Units
  import opened Stepper
  import opened AmountText

  datatype Button = DecrementButton | IncrementButton

  /** The action of a touch event: a release, or anything else. */
  datatype MotionAction = ActionUp | OtherAction

  datatype Event =
    | LongClick(button: Button)
    | Touch(button: Button, action: MotionAction)
    | Click(button: Button)
    | Tick

  /** The layout attributes a host supplied, as the attribute reader returned them. */
  datatype Attributes = Attributes(useFloat: bool, unitType: int, defaultValue: int, changeFactor: int)

  datatype Widget = Widget(
    useFloat: bool,
    unitType: int,
    defaultAmount: int,
    changeFactor: int,
    currentAmount: int,
    autoIncrement: bool,
    autoDecrement: bool,
    amountText: string,
    unitLabel: Option<UnitKind>,
    hasListener: bool)

  datatype Reaction = Reaction(widget: Widget, notified: Option<int>, postsTick: bool)

  /** Whether a button is being held for auto-repeat. */
  function Held(w: Widget, b: Button): bool
  {
    match b
    case DecrementButton => w.autoDecrement
    case IncrementButton => w.autoIncrement
  }

  function Other(b: Button): Button
  {
    match b
    case DecrementButton => IncrementButton
    case IncrementButton => DecrementButton
  }

  /**
    The hold flags read as a state machine. Incrementing wins when both
    flags are set, as the counter callback tests it first.
   */
  datatype Mode = Idle | Incrementing | Decrementing

  function ModeOf(w: Widget): Mode
  {
    if w.autoIncrement then Incrementing
    else if w.autoDecrement then Decrementing
    else Idle
  }

  /** The widget's configuration: everything events never change. */
  predicate SameConfiguration(w: Widget, w': Widget)
  {
    && w'.useFloat == w.useFloat
    && w'.unitType == w.unitType
    && w'.defaultAmount == w.defaultAmount
    && w'.changeFactor == w.changeFactor
    && w'.unitLabel == w.unitLabel
    && w'.hasListener == w.hasListener
  }

  /** The shown text is the rendering of the current amount. */
  predicate Displayed(w: Widget)
  {
    w.amountText == Render(w.useFloat, w.currentAmount)
  }

  /** The fields before any attribute is read: nothing configured yet. */
  const Unconfigured: Widget :=
    Widget(false, -1, Sentinel, Sentinel, 0, false, false, "", None, false)

  // ----- configuration defaulting -----

  /** Adopt `amount` as the default amount only if none is configured yet. */
  function UpdateDefaultAmount(w: Widget, amount: int): (r: Widget)
    ensures r == w.(defaultAmount := r.defaultAmount)
    ensures w.defaultAmount != Sentinel ==> r.defaultAmount == w.defaultAmount
    ensures w.defaultAmount == Sentinel ==> r.defaultAmount == amount
  {
    if w.defaultAmount == Sentinel then w.(defaultAmount := amount) else w
  }

  /** Adopt `factor` as the step only if none is configured yet. */
  function UpdateChangeFactor(w: Widget, factor: int): (r: Widget)
    ensures r == w.(changeFactor := r.changeFactor)
    ensures w.changeFactor != Sentinel ==> r.changeFactor == w.changeFactor
    ensures w.changeFactor == Sentinel ==> r.changeFactor == factor
  {
    if w.changeFactor == Sentinel then w.(changeFactor := factor) else w
  }

  /**
    Fill in the unit kind's defaults where nothing is configured, show its
    label, reset the current amount to the default amount and display it.
   */
  function InitRequiredAttributes(w: Widget, unit: int): (r: Reaction)
    ensures w.defaultAmount != Sentinel ==> r.widget.defaultAmount == w.defaultAmount
    ensures w.changeFactor != Sentinel ==> r.widget.changeFactor == w.changeFactor
    ensures KindOf(unit).Some? && w.defaultAmount == Sentinel ==>
              r.widget.defaultAmount == DefaultAmount(KindOf(unit).value)
    ensures KindOf(unit).Some? && w.changeFactor == Sentinel ==>
              r.widget.changeFactor == DefaultChangeFactor(KindOf(unit).value)
    ensures KindOf(unit).None? ==>
              r.widget.defaultAmount == w.defaultAmount && r.widget.changeFactor == w.changeFactor
                && r.widget.unitLabel == w.unitLabel
    ensures KindOf(unit).Some? ==> r.widget.unitLabel == KindOf(unit)
    ensures r.widget.currentAmount == r.widget.defaultAmount
    ensures Displayed(r.widget) && !r.postsTick
    ensures r.notified == (if w.hasListener then Some(r.widget.currentAmount) else None)
    ensures r.widget.useFloat == w.useFloat && r.widget.unitType == w.unitType
    ensures r.widget.hasListener == w.hasListener
    ensures r.widget.autoIncrement == w.autoIncrement && r.widget.autoDecrement == w.autoDecrement
  {
    var configured :=
      match KindOf(unit)
      case Some(k) =>
        UpdateChangeFactor(UpdateDefaultAmount(w, DefaultAmount(k)), DefaultChangeFactor(k))
          .(unitLabel := Some(k))
      case None => w;
    var reset := configured.(currentAmount := configured.defaultAmount);
    UpdateAmount(reset, reset.currentAmount)
  }

  // ----- display and notification -----

  /**
    Show `amount` and call the listener with it. Without a registered listener
    the call fails and the failure is swallowed: the text is still shown.
   */
  function UpdateAmount(w: Widget, amount: int): (r: Reaction)
    ensures r.widget == w.(amountText := r.widget.amountText)
    ensures ParseAmount(r.widget.amountText)
              == Some(if w.useFloat then amount else TruncateToWhole(amount) * Scale)
    ensures ('.' in r.widget.amountText) == w.useFloat
    ensures r.notified.Some? <==> w.hasListener
    ensures r.notified.Some? ==> r.notified.value == amount
    ensures !r.postsTick
  {
    Reaction(
      w.(amountText := Render(w.useFloat, amount)),
      if w.hasListener then Some(amount) else None,
      false)
  }

  /**
    The amount the widget reports: the shown text read back, or the default
    amount while nothing is shown. None where the text does not read as a
    number (the platform would throw).
   */
  function GetAmount(w: Widget): (r: Option<int>)
    ensures |w.amountText| == 0 ==> r == Some(w.defaultAmount)
    ensures Displayed(w) ==>
              r == Some(if w.useFloat then w.currentAmount else TruncateToWhole(w.currentAmount) * Scale)
  {
    if |w.amountText| > 0 then ParseAmount(w.amountText) else Some(w.defaultAmount)
  }

  // ----- events -----

  /** A click on increment: one increment, shown and reported. */
  function StepUp(w: Widget): (r: Reaction)
    ensures r.widget.currentAmount == Increment(w.currentAmount, w.changeFactor)
    ensures r.widget == w.(currentAmount := r.widget.currentAmount, amountText := r.widget.amountText)
    ensures Displayed(r.widget) && !r.postsTick
    ensures r.notified == (if w.hasListener then Some(r.widget.currentAmount) else None)
  {
    var stepped := w.(currentAmount := Increment(w.currentAmount, w.changeFactor));
    UpdateAmount(stepped, stepped.currentAmount)
  }

  /** A click on decrement: one decrement, shown and reported. */
  function StepDown(w: Widget): (r: Reaction)
    ensures r.widget.currentAmount == Decrement(w.currentAmount, w.changeFactor)
    ensures r.widget == w.(currentAmount := r.widget.currentAmount, amountText := r.widget.amountText)
    ensures Displayed(r.widget) && !r.postsTick
    ensures r.notified == (if w.hasListener then Some(r.widget.currentAmount) else None)
  {
    var stepped := w.(currentAmount := Decrement(w.currentAmount, w.changeFactor));
    UpdateAmount(stepped, stepped.currentAmount)
  }

  /** The widget's reaction to one input event or counter tick. */
  function Handle(w: Widget, e: Event): (r: Reaction)
    ensures SameConfiguration(w, r.widget)
    ensures Displayed(w) ==> Displayed(r.widget)
    ensures r.notified.Some? ==> w.hasListener && r.notified.value == r.widget.currentAmount
  {
    match e
    case LongClick(DecrementButton) => Reaction(w.(autoDecrement := true), None, true)
    case LongClick(IncrementButton) => Reaction(w.(autoIncrement := true), None, true)
    case Touch(DecrementButton, action) =>
      var released := if action == ActionUp && w.autoDecrement then w.(autoDecrement := false) else w;
      Reaction(released, None, false)
    case Touch(IncrementButton, action) =>
      var released := if action == ActionUp && w.autoIncrement then w.(autoIncrement := false) else w;
      Reaction(released, None, false)
    case Click(DecrementButton) => StepDown(w)
    case Click(IncrementButton) => StepUp(w)
    case Tick =>
      if w.autoIncrement then StepUp(w).(postsTick := true)
      else if w.autoDecrement then StepDown(w).(postsTick := true)
      else Reaction(w, None, false)
  }

  /** The widget after a sequence of events. */
  function Run(w: Widget, events: seq<Event>): Widget
    decreases |events|
  {
    if |events| == 0 then w else Run(Handle(w, events[0]).widget, events[1..])
  }

  function Repeat(e: Event, n: nat): (es: seq<Event>)
    ensures |es| == n
  {
    seq(n, _ => e)
  }

  // ----- construction and setters -----

  /** Take the host's attributes; without any, every field keeps its initial value. */
  function SetAttributes(w: Widget, attrs: Option<Attributes>): (r: Widget)
    ensures attrs.None? ==> r == w
    ensures attrs.Some? ==>
              && r.useFloat == attrs.value.useFloat && r.unitType == attrs.value.unitType
              && r.defaultAmount == attrs.value.defaultValue && r.changeFactor == attrs.value.changeFactor
    ensures r.currentAmount == w.currentAmount && r.amountText == w.amountText
    ensures r.autoIncrement == w.autoIncrement && r.autoDecrement == w.autoDecrement
    ensures r.unitLabel == w.unitLabel && r.hasListener == w.hasListener
  {
    match attrs
    case None => w
    case Some(a) =>
      w.(useFloat := a.useFloat, unitType := a.unitType,
         defaultAmount := a.defaultValue, changeFactor := a.changeFactor)
  }

  /** A freshly constructed widget: attributes read, defaults resolved, amount shown. */
  function Construct(attrs: Option<Attributes>): (w: Widget)
    ensures !w.hasListener && !w.autoIncrement && !w.autoDecrement
    ensures w.currentAmount == w.defaultAmount && Displayed(w)
    ensures attrs.None? ==>
              w.unitType == -1 && w.defaultAmount == Sentinel && w.changeFactor == Sentinel
                && w.unitLabel == None && !w.useFloat
    ensures attrs.Some? ==> w.useFloat == attrs.value.useFloat && w.unitType == attrs.value.unitType
    ensures attrs.Some? && attrs.value.defaultValue != Sentinel ==>
              w.defaultAmount == attrs.value.defaultValue
    ensures attrs.Some? && attrs.value.changeFactor != Sentinel ==>
              w.changeFactor == attrs.value.changeFactor
  {
    var configured := SetAttributes(Unconfigured, attrs);
    InitRequiredAttributes(configured, configured.unitType).widget
  }

  /** Register the change listener; from now on every update notifies it. */
  function AddUnitAmountChangeListener(w: Widget): (r: Widget)
    ensures r.hasListener && r.(hasListener := w.hasListener) == w
  {
    w.(hasListener := true)
  }

  /** Switch display mode; the shown text is not refreshed until the next update. */
  function SetUseFloat(w: Widget, useFloat: bool): (r: Widget)
    ensures r.useFloat == useFloat
    ensures r.amountText == w.amountText && r.currentAmount == w.currentAmount
    ensures r.(useFloat := w.useFloat) == w
  {
    w.(useFloat := useFloat)
  }

  /** Set the step unconditionally. */
  function SetChangeFactor(w: Widget, factor: int): (r: Widget)
    ensures r.changeFactor == factor
    ensures r.(changeFactor := w.changeFactor) == w
  {
    w.(changeFactor := factor)
  }

  /** Set the default amount and show it; the current amount is not touched. */
  function SetDefaultValue(w: Widget, value: int): (r: Reaction)
    ensures r.widget.defaultAmount == value && r.widget.currentAmount == w.currentAmount
    ensures GetAmount(r.widget) == Some(if w.useFloat then value else TruncateToWhole(value) * Scale)
    ensures r.notified == (if w.hasListener then Some(value) else None)
    ensures r.widget == w.(defaultAmount := value, amountText := r.widget.amountText) && !r.postsTick
  {
    UpdateAmount(w.(defaultAmount := value), value)
  }

  /** Select a unit kind by code and resolve its defaults again. */
  function SetUnitType(w: Widget, unit: int): (r: Reaction)
    ensures r.widget.unitType == unit
    ensures w.defaultAmount != Sentinel ==> r.widget.defaultAmount == w.defaultAmount
    ensures w.changeFactor != Sentinel ==> r.widget.changeFactor == w.changeFactor
    ensures KindOf(unit).Some? && w.defaultAmount == Sentinel ==>
              r.widget.defaultAmount == DefaultAmount(KindOf(unit).value)
    ensures KindOf(unit).Some? && w.changeFactor == Sentinel ==>
              r.widget.changeFactor == DefaultChangeFactor(KindOf(unit).value)
    ensures KindOf(unit).None? ==>
              r.widget.defaultAmount == w.defaultAmount && r.widget.changeFactor == w.changeFactor
                && r.widget.unitLabel == w.unitLabel
    ensures KindOf(unit).Some? ==> r.widget.unitLabel == KindOf(unit)
    ensures r.widget.currentAmount == r.widget.defaultAmount
    ensures Displayed(r.widget) && !r.postsTick
    ensures r.notified == (if w.hasListener then Some(r.widget.currentAmount) else None)
    ensures r.widget.useFloat == w.useFloat && r.widget.hasListener == w.hasListener
    ensures r.widget.autoIncrement == w.autoIncrement && r.widget.autoDecrement == w.autoDecrement
  {
    InitRequiredAttributes(w.(unitType := unit), unit)
  }
}

=== FILE: unit_view_properties.dfy ===
/** Properties of the widget that relate several calls or whole event sequences. */
module UnitViewProperties {
  import opened Wrappers
  import opened Units
  import opened Stepper
  import opened AmountText
  import opened UnitView

  // ----- defaulting -----

  /** Resolving a known unit leaves neither amount nor step at the sentinel. */
  lemma KnownUnitIsConfigured(w: Widget, unit: int)
    requires KindOf(unit).Some?
    ensures InitRequiredAttributes(w, unit).widget.defaultAmount != Sentinel
    ensures InitRequiredAttributes(w, unit).widget.changeFactor != Sentinel
  {
  }

  /** Resolving the same unit again changes nothing: defaults apply at most once. */
  lemma InitRequiredAttributesIdempotent(w: Widget, unit: int)
    ensures var once := InitRequiredAttributes(w, unit).widget;
            InitRequiredAttributes(once, unit).widget == once
  {
  }

  /** The per-kind table, as a host without explicit attributes sees it. */
  lemma UnitDefaultsTable(useFloat: bool)
    ensures Construct(Some(Attributes(useFloat, Code(Minutes), Sentinel, Sentinel))).defaultAmount == 6000
    ensures Construct(Some(Attributes(useFloat, Code(Minutes), Sentinel, Sentinel))).changeFactor == 500
    ensures Construct(Some(Attributes(useFloat, Code(Hours), Sentinel, Sentinel))).defaultAmount == 6000
    ensures Construct(Some(Attributes(useFloat, Code(Hours), Sentinel, Sentinel))).changeFactor == 100
    ensures Construct(Some(Attributes(useFloat, Code(Kg), Sentinel, Sentinel))).defaultAmount == 6800
    ensures Construct(Some(Attributes(useFloat, Code(Kg), Sentinel, Sentinel))).changeFactor == 50
    ensures Construct(Some(Attributes(useFloat, Code(Lbs), Sentinel, Sentinel))).defaultAmount == 14520
    ensures Construct(Some(Attributes(useFloat, Code(Lbs), Sentinel, Sentinel))).changeFactor == 50
  {
  }

  // ----- hold flags -----

  /**
    A long click sets only its own button's flag and posts the counter; a
    release clears only its own button's flag; any other touch changes
    nothing. None of them touches the amount or the text, or notifies.
   */
  lemma HoldFlags(w: Widget, b: Button)
    ensures var r := Handle(w, LongClick(b));
            && Held(r.widget, b) && Held(r.widget, Other(b)) == Held(w, Other(b))
            && r.widget == w.(autoIncrement := r.widget.autoIncrement, autoDecrement := r.widget.autoDecrement)
            && r.postsTick && r.notified.None?
    ensures var r := Handle(w, Touch(b, ActionUp));
            && !Held(r.widget, b) && Held(r.widget, Other(b)) == Held(w, Other(b))
            && r.widget == w.(autoIncrement := r.widget.autoIncrement, autoDecrement := r.widget.autoDecrement)
            && !r.postsTick && r.notified.None?
    ensures Handle(w, Touch(b, OtherAction)) == Reaction(w, None, false)
  {
  }

  /**
    A tick steps once in the direction of the mode and re-arms; when idle it
    changes nothing and is not re-armed. The flags survive the tick.
   */
  lemma TickFollowsMode(w: Widget)
    ensures var r := Handle(w, Tick);
            && (ModeOf(w) == Idle ==> r == Reaction(w, None, false))
            && (ModeOf(w) == Incrementing ==>
                  r.widget.currentAmount == Increment(w.currentAmount, w.changeFactor) && r.postsTick)
            && (ModeOf(w) == Decrementing ==>
                  r.widget.currentAmount == Decrement(w.currentAmount, w.changeFactor) && r.postsTick)
            && r.widget.autoIncrement == w.autoIncrement && r.widget.autoDecrement == w.autoDecrement
            && (ModeOf(w) != Idle ==> r.notified == (if w.hasListener then Some(r.widget.currentAmount) else None))
  {
  }

  /** Releasing the held increment button (decrement not held) makes the next tick a no-op. */
  lemma ReleaseStopsRepeat(w: Widget)
    requires !w.autoDecrement
    ensures var released := Handle(w, Touch(IncrementButton, ActionUp)).widget;
            ModeOf(released) == Idle && Handle(released, Tick) == Reaction(released, None, false)
  {
  }

  /** A click steps exactly once, whatever the hold flags say, and posts nothing. */
  lemma ClickStepsOnce(w: Widget, b: Button, autoIncrement: bool, autoDecrement: bool)
    ensures var r := Handle(w, Click(b));
            && r.widget.currentAmount
                 == (if b == IncrementButton then Increment(w.currentAmount, w.changeFactor)
                     else Decrement(w.currentAmount, w.changeFactor))
            && r.widget.autoIncrement == w.autoIncrement && r.widget.autoDecrement == w.autoDecrement
            && !r.postsTick
    ensures var flagged := w.(autoIncrement := autoIncrement, autoDecrement := autoDecrement);
            Handle(flagged, Click(b)).widget
              == Handle(w, Click(b)).widget.(autoIncrement := autoIncrement, autoDecrement := autoDecrement)
  {
  }

  /** Whether a listener is registered changes only what is notified, never the state. */
  lemma ListenerDoesNotAffectState(w: Widget, e: Event)
    ensures Handle(w.(hasListener := false), e).widget == Handle(w, e).widget.(hasListener := false)
    ensures Handle(w.(hasListener := false), e).notified.None?
    ensures Handle(w.(hasListener := false), e).postsTick == Handle(w, e).postsTick
  {
  }

  // ----- sequences of events -----

  /** Holding increment: `n` ticks make `n` increments and keep the flags. */
  lemma {:induction false} HeldTicksIncrement(w: Widget, n: nat)
    requires w.autoIncrement
    ensures Run(w, Repeat(Tick, n)).currentAmount == Increments(w.currentAmount, w.changeFactor, n)
    ensures ModeOf(Run(w, Repeat(Tick, n))) == Incrementing
    ensures SameConfiguration(w, Run(w, Repeat(Tick, n)))
    decreases n
  {
    if n > 0 {
      var next := Handle(w, Tick).widget;
      TickFollowsMode(w);
      assert Repeat(Tick, n)[0] == Tick;
      assert Repeat(Tick, n)[1..] == Repeat(Tick, n - 1);
      assert Run(w, Repeat(Tick, n)) == Run(next, Repeat(Tick, n - 1));
      HeldTicksIncrement(next, n - 1);
    }
  }

  /** Holding decrement alone: `n` ticks make `n` decrements and keep the flags. */
  lemma {:induction false} HeldTicksDecrement(w: Widget, n: nat)
    requires !w.autoIncrement && w.autoDecrement
    ensures Run(w, Repeat(Tick, n)).currentAmount == Decrements(w.currentAmount, w.changeFactor, n)
    ensures ModeOf(Run(w, Repeat(Tick, n))) == Decrementing
    ensures SameConfiguration(w, Run(w, Repeat(Tick, n)))
    decreases n
  {
    if n > 0 {
      var next := Handle(w, Tick).widget;
      TickFollowsMode(w);
      assert Repeat(Tick, n)[0] == Tick;
      assert Repeat(Tick, n)[1..] == Repeat(Tick, n - 1);
      assert Run(w, Repeat(Tick, n)) == Run(next, Repeat(Tick, n - 1));
      HeldTicksDecrement(next, n - 1);
    }
  }

  /** `n` clicks on increment make `n` increments. */
  lemma {:induction false} ClicksIncrement(w: Widget, n: nat)
    ensures Run(w, Repeat(Click(IncrementButton), n)).currentAmount
              == Increments(w.currentAmount, w.changeFactor, n)
    ensures SameConfiguration(w, Run(w, Repeat(Click(IncrementButton), n)))
    ensures Displayed(w) ==> Displayed(Run(w, Repeat(Click(IncrementButton), n)))
    decreases n
  {
    if n > 0 {
      var e := Click(IncrementButton);
      assert Repeat(e, n)[0] == e;
      assert Repeat(e, n)[1..] == Repeat(e, n - 1);
      ClicksIncrement(Handle(w, e).widget, n - 1);
    }
  }

  /** Holding increment with a positive step long enough reaches the maximum and stays. */
  lemma HoldReachesMax(w: Widget, n: nat, m: nat)
    requires w.autoIncrement && w.changeFactor > 0
    requires n > 0 && w.currentAmount + n * w.changeFactor >= MaxRange
    ensures Run(w, Repeat(Tick, n)).currentAmount == MaxRange
    ensures Run(Run(w, Repeat(Tick, n)), Repeat(Tick, m)).currentAmount == MaxRange
  {
    HeldTicksIncrement(w, n);
    IncrementsReachMax(w.currentAmount, w.changeFactor, n);
    var held := Run(w, Repeat(Tick, n));
    HeldTicksIncrement(held, m);
    IncrementsStayAtMax(held.changeFactor, m);
  }

  /** Holding decrement alone with a positive step long enough reaches the minimum and stays. */
  lemma HoldReachesMin(w: Widget, n: nat, m: nat)
    requires !w.autoIncrement && w.autoDecrement && w.changeFactor > 0
    requires n > 0 && w.currentAmount - n * w.changeFactor <= MinRange
    ensures Run(w, Repeat(Tick, n)).currentAmount == MinRange
    ensures Run(Run(w, Repeat(Tick, n)), Repeat(Tick, m)).currentAmount == MinRange
  {
    HeldTicksDecrement(w, n);
    DecrementsReachMin(w.currentAmount, w.changeFactor, n);
    var held := Run(w, Repeat(Tick, n));
    HeldTicksDecrement(held, m);
    DecrementsStayAtMin(held.changeFactor, m);
  }

  /** With a non-negative step, an in-range amount stays in range under every event. */
  lemma EventsKeepRange(w: Widget, e: Event)
    requires InRange(w.currentAmount) && w.changeFactor >= 0
    ensures InRange(Handle(w, e).widget.currentAmount)
  {
    StepsKeepRange(w.currentAmount, w.changeFactor);
  }

  /**
    Without attributes nothing is configured: the widget starts at -1 with
    step -1, below the minimum, and an increment walks further down.
   */
  lemma UnconfiguredWidgetLeavesRange()
    ensures Construct(None).currentAmount == Sentinel
    ensures Handle(Construct(None), Click(IncrementButton)).widget.currentAmount == 2 * Sentinel
    ensures !InRange(Handle(Construct(None), Click(IncrementButton)).widget.currentAmount)
  {
  }

  // ----- display -----

  /**
    Setting the default value shows it, but the next increment still starts
    from the old current amount.
   */
  lemma SetDefaultValueKeepsCurrentAmount(w: Widget, value: int)
    ensures var updated := SetDefaultValue(w, value).widget;
            && GetAmount(updated) == Some(if w.useFloat then value else TruncateToWhole(value) * Scale)
            && Handle(updated, Click(IncrementButton)).widget.currentAmount
                 == Increment(w.currentAmount, w.changeFactor)
  {
  }

  /**
    A host that sets the step and the default value and then selects a unit
    keeps its explicit values: the unit's defaults do not override them, and
    the widget starts at the explicit default value.
   */
  lemma ExplicitSettersWinOverUnitDefaults(w: Widget, factor: int, value: int, unit: int)
    requires factor != Sentinel && value != Sentinel
    ensures var r := SetUnitType(SetDefaultValue(SetChangeFactor(w, factor), value).widget, unit).widget;
            r.changeFactor == factor && r.defaultAmount == value && r.currentAmount == value
  {
  }

  /** A change of display mode shows on the next update, not before. */
  lemma UseFloatAppliesOnNextUpdate(w: Widget, useFloat: bool, b: Button)
    ensures SetUseFloat(w, useFloat).amountText == w.amountText
    ensures var r := Handle(SetUseFloat(w, useFloat), Click(b)).widget;
            Displayed(r) && r.useFloat == useFloat
  {
  }

  /** Once a listener is added, every click reports the new amount to it. */
  lemma ListenerHearsEveryClick(w: Widget, b: Button)
    ensures var r := Handle(AddUnitAmountChangeListener(w), Click(b));
            r.notified == Some(r.widget.currentAmount)
  {
  }

  /** Hours, step 1, default 60: five increments show 65, nine more show 74. */
  lemma HoursExample()
    ensures var w := Construct(Some(Attributes(false, Code(Hours), Sentinel, Sentinel)));
            && Run(w, Repeat(Click(IncrementButton), 5)).currentAmount == 6500
            && GetAmount(Run(w, Repeat(Click(IncrementButton), 5))) == Some(6500)
            && Run(Run(w, Repeat(Click(IncrementButton), 5)), Repeat(Click(IncrementButton), 9)).currentAmount
                 == 7400
  {
    var w := Construct(Some(Attributes(false, Code(Hours), Sentinel, Sentinel)));
    ClicksIncrement(w, 5);
    IncrementsAreExact(6000, 100, 5);
    var five := Run(w, Repeat(Click(IncrementButton), 5));
    ClicksIncrement(five, 9);
    IncrementsAreExact(6500, 100, 9);
  }
}

=== FILE: units.dfy ===
/**
  The unit kinds of the widget and the constants of its companion object.

  Every amount in this model is an integer count of hundredths: the widget
  rounds each amount it computes to two decimals, so on such values its
  rounding is exact and the model needs no floating point.
 */
module Units {
  import opened Wrappers

  /** Hundredths per whole unit. */
  const Scale: nat := 100

  /** The "not configured" marker `-1F` that amount and step start with. */
  const Sentinel: int := -1 * Scale

  datatype UnitKind = Minutes | Hours | Kg | Lbs

  /** The integer code a host uses to select a unit kind. */
  function Code(k: UnitKind): int
  {
    match k
    case Minutes => 0
    case Hours => 1
    case Kg => 2
    case Lbs => 3
  }

  /** The unit kind a code selects; any other code selects none. */
  function KindOf(code: int): (r: Option<UnitKind>)
    ensures r.Some? ==> Code(r.value) == code
    ensures r.None? ==> forall k: UnitKind :: Code(k) != code
  {
    if code == 0 then Some(Minutes)
    else if code == 1 then Some(Hours)
    else if code == 2 then Some(Kg)
    else if code == 3 then Some(Lbs)
    else None
  }

  lemma CodeRoundTrip(k: UnitKind)
    ensures KindOf(Code(k)) == Some(k)
  {
  }

  /** The amount a unit kind starts at when the host configured none. */
  function DefaultAmount(k: UnitKind): (r: int)
    ensures r > 0 && r != Sentinel
  {
    match k
    case Minutes => 60 * Scale
    case Hours => 60 * Scale
    case Kg => 68 * Scale
    case Lbs => 14520
  }

  /** The step a unit kind uses when the host configured none. */
  function DefaultChangeFactor(k: UnitKind): (r: int)
    ensures r > 0 && r != Sentinel
  {
    match k
    case Minutes => 5 * Scale
    case Hours => 1 * Scale
    case Kg => 50
    case Lbs => 50
  }
}

=== FILE: wrappers.dfy ===
/** The optional value used wherever the widget may have nothing to report. */
module Wrappers {

  datatype Option<+T> = None | Some(value: T)
}
